=== FILE: README.md ===
# Workflow builder: a Dafny model

This project models the editing core of a media-workflow web app.
- A workflow is an ordered list of steps: one input image, any number of image operations ("function" steps) and one output.
- The builder adds, deletes, reorders and runs steps.
- Two panels turn mouse drags into reorder requests.
- A function library filters a fixed catalogue by search text and category.
- A zoom control clamps a percentage.
- A page switches between a dashboard and the builder.

Every handler is a pure function. The notices the app would pop up (toasts) are returned as values. Nothing here touches I/O.

Modules:
- `Seqs` (`seqs.dfy`): the JavaScript array operations the handlers use. These are `filter`, `findIndex`, `splice` (with its negative-start rule) and the splice-out/splice-in pair of a reorder (`Move`). It also defines the subsequence relation `Embeds`.
- `Text` (`text.dfy`): ASCII `toLowerCase`, `includes` (proved equal to a reference definition of "occurs in"), and decimal rendering.
- `FunctionLibrary` (`function_library.dfy`): the catalogue, the panel's search/filter state and the filtered listing.
- `WorkflowBuilder` (`workflow_builder.dfy`): steps, the initial list, add, delete, reorder, run, selection, and the invariant `WellFormed`. `WellFormed` means input first, output last, only function steps between them, and unique ids.
- `DragGesture` (`drag_gesture.dfy`): the `draggedItem` state both panels keep, and the reorder request a drag-over emits.
- `WorkflowStepsPanel` (`workflow_steps.dfy`): the steps panel the builder actually renders.
- `InputOutputPanel` (`input_output.dfy`): the alternative panel, whose drag-over checks both cards' types.
- `ZoomControls` (`zoom_controls.dfy`): clamp, zoom in/out and slider.
- `Navigation` (`navigation.dfy`): dashboard/builder view state and the builder title.

The model follows the code as written, including these behaviours:
- Delete removes any step with the given id. That includes the input and the output (`DeleteInputIsUnguarded`).
- Delete leaves the selection pointing at the removed id (`SelectionSurvivesDelete`).
- The new step's id (`step-${Date.now()}`) is a parameter. Uniqueness is assumed only where a lemma says so.
- The panels send FULL-list positions. The reorder handler reads them as positions among the FUNCTION steps.
  - On a well-formed list, a drag from position p over position q therefore moves the step at p + 1 to position q + 1 (`DeliverMovesTheNextCard`).
  - Dragging the last function card, or hovering over it, does nothing, so this panel can never move the last function step (`DeliverOverLastCardIsNoOp`).
  - `DragFirstOverSecond` works this through on a five-step list.

## Model

| member | source | states |
|---|---|---|
| WorkflowBuilder.InitialSteps | src/components/WorkflowBuilder.tsx:16-19 | The list starts as input then output, ids "input" and "output": well-formed, two steps, no function step |
| WorkflowBuilder.InitialBuilder | src/components/WorkflowBuilder.tsx:16-20 | The builder opens on exactly the initial input-then-output list, which is well-formed, with no step selected |
| WorkflowBuilder.NewFunctionStep | src/components/WorkflowBuilder.tsx:24-30 | The new step is a function step carrying the fresh id, the entry's name, the entry itself and no parameters |
| WorkflowBuilder.AddFunction | src/components/WorkflowBuilder.tsx:23-41 | Length grows by one. The new step has the fresh id, the catalogue entry's name, type function and empty parameters, and sits at the old output index with the old output right after it. Removing it gives back the old list. The notice is "Function Added" |
| WorkflowBuilder.AddKeepsWellFormed | src/components/WorkflowBuilder.tsx:32-35 | With a fresh id, adding keeps the list well-formed and appends the new step to the function-only view |
| WorkflowBuilder.AddTwiceFromInitial | src/components/WorkflowBuilder.tsx:16-41 | Adding F1 then F2 to the initial list gives input, F1, F2, output |
| WorkflowBuilder.AddKeepsOldSteps | src/components/WorkflowBuilder.tsx:32-35 | Adding loses nothing: the old list is an order-preserving subsequence of the new one |
| WorkflowBuilder.DeleteStep | src/components/WorkflowBuilder.tsx:43-53 | No remaining step has the id. Every other step keeps its order (subsequence) and its number of copies, so duplicates survive as often as they appeared. The list is unchanged exactly when the id is absent. A notice is raised exactly when the id is present, naming the first step with that id |
| WorkflowBuilder.DeleteKeepsOthers | src/components/WorkflowBuilder.tsx:45 | Every remaining step was in the list, and every step with a different id remains |
| WorkflowBuilder.DeleteRemovesExactlyOne | src/components/WorkflowBuilder.tsx:44-45 | With unique ids, deleting a present id removes exactly the one step at its position |
| WorkflowBuilder.DeleteKeepsWellFormed | src/components/WorkflowBuilder.tsx:45 | Deleting an id other than the input's and output's keeps the list well-formed |
| WorkflowBuilder.DeleteIdempotent | src/components/WorkflowBuilder.tsx:43-53 | Deleting twice equals deleting once, and the second delete raises no notice |
| WorkflowBuilder.DeleteInputIsUnguarded | src/components/WorkflowBuilder.tsx:43-45 | Nothing protects the endpoints: deleting "input" from the initial list leaves only the output, which is not well-formed |
| WorkflowBuilder.ReorderSteps | src/components/WorkflowBuilder.tsx:55-74 | Length is kept. A drag or hover index outside the function-only view changes nothing, and equal indices change nothing |
| WorkflowBuilder.ReorderAtFunctionPositions | src/components/WorkflowBuilder.tsx:60-73 | On a well-formed list, function indices d and h move the step at full position d + 1 to full position h + 1 |
| WorkflowBuilder.ReorderPermutes | src/components/WorkflowBuilder.tsx:70-73 | A reorder is a permutation of the list |
| WorkflowBuilder.ReorderKeepsWellFormed | src/components/WorkflowBuilder.tsx:55-74 | Reordering keeps a well-formed list well-formed, so input stays first and output last |
| WorkflowBuilder.ReorderRoundTrip | src/components/WorkflowBuilder.tsx:55-74 | On a well-formed list, reordering (d, h) and then (h, d) restores the list |
| WorkflowBuilder.ReorderBack | src/components/WorkflowBuilder.tsx:55-74 | The reverse request (h, d) applied to the moved list gives back the original list |
| WorkflowBuilder.ReorderThirdOntoFirst | src/components/WorkflowBuilder.tsx:60-73 | Function index 2 over 0 on input, F1, F2, F3, output gives input, F3, F1, F2, output |
| WorkflowBuilder.RunBatch | src/components/WorkflowBuilder.tsx:76-91 | A run starts exactly when some function step exists. The count is the number of function steps for every list, with or without duplicate ids. With none, the notice is the destructive "No Functions". When started, the notice is "Batch Process Started" and its description is "Processing workflow with N functions..." with N the count in decimal |
| WorkflowBuilder.RunCountsMiddleSteps | src/components/WorkflowBuilder.tsx:77-89 | On a well-formed list the run starts exactly when there are more than two steps, and the count is the number of steps between input and output |
| WorkflowBuilder.FunctionStepsOfWellFormed | src/components/WorkflowBuilder.tsx:60 | On a well-formed list the function-only view is the list without its first and last step |
| WorkflowBuilder.Position | src/components/WorkflowBuilder.tsx:65-66 | findIndex by id gives -1 exactly when the id is absent, else the first position holding it |
| WorkflowBuilder.PositionOfUnique | src/components/WorkflowBuilder.tsx:65-66 | With unique ids, looking up a step's id finds that step's own position |
| WorkflowBuilder.InsertionIndex | src/components/WorkflowBuilder.tsx:32-34 | The splice position is the first output index; with no output, findIndex's -1 makes splice insert before the last element |
| WorkflowBuilder.SelectStep | src/components/WorkflowBuilder.tsx:154 | Selecting records the id and leaves the list alone |
| WorkflowBuilder.DeleteInBuilder | src/components/WorkflowBuilder.tsx:43-53 | Deleting inside the builder applies the delete handler to the list, so every other step survives with its order and copy count. It keeps the selection, leaves no step with the id, and changes the list exactly when the id was present |
| WorkflowBuilder.SelectionSurvivesDelete | src/components/WorkflowBuilder.tsx:43-53 | Select a step and delete it: the selection still names an id that is no longer in the list |
| Seqs.FindIndex | src/components/WorkflowBuilder.tsx:65-66 | Gives -1 exactly when no element passes, else the first passing index |
| Seqs.Filter | src/components/WorkflowBuilder.tsx:45 | A filter result is no longer than its input and every element in it passes the test |
| Seqs.Insert | src/components/WorkflowBuilder.tsx:34 | splice(k, 0, x) puts x at k, keeps everything before k, and shifts everything from k on by one place |
| Seqs.RemoveAt | src/components/WorkflowBuilder.tsx:71 | splice(k, 1) removes the element at k, keeps everything before k, and shifts everything after it back by one place |
| Seqs.Move | src/components/WorkflowBuilder.tsx:70-72 | The splice-out/splice-in pair keeps the length, and the moved element lands at the target index. Equal indices change nothing |
| Seqs.SpliceStart | src/components/WorkflowBuilder.tsx:34 | splice's start rule: a start inside the array is kept, a negative start counts from the end but not past 0, and a start past the end is the end |
| Seqs.MoveAt | src/components/WorkflowBuilder.tsx:70-72 | After moving from `from` to `to`, outside the range between them nothing moves, and inside it every element shifts by one toward the vacated slot |
| Seqs.MoveSourceMap | src/components/WorkflowBuilder.tsx:70-72 | Move rearranges by an injective index map |
| Seqs.MovePermutes | src/components/WorkflowBuilder.tsx:70-72 | Move keeps the multiset of elements |
| Seqs.MoveInverse | src/components/WorkflowBuilder.tsx:70-72 | Moving back from `to` to `from` undoes a move |
| Seqs.MoveForward | src/components/WorkflowBuilder.tsx:70-72 | A move toward the back, written as slices |
| Seqs.MoveBackward | src/components/WorkflowBuilder.tsx:70-72 | A move toward the front, written as slices |
| Seqs.FilterEmbeds | src/components/FunctionLibrary.tsx:30-34 | A filter result is an order-preserving subsequence of its input |
| Seqs.FilterCount | src/components/WorkflowBuilder.tsx:45 | A filter keeps every copy of a passing element and drops every copy of a failing one |
| Seqs.FilterComplete | src/components/WorkflowBuilder.tsx:45 | A filter keeps every passing element |
| Seqs.FilterIdentity | src/components/WorkflowBuilder.tsx:45 | A filter returns its input exactly when every element passes |
| Seqs.FilterEmpty | src/components/WorkflowBuilder.tsx:77-78 | A filter is empty exactly when no element passes |
| Seqs.FilterConcat | src/components/WorkflowBuilder.tsx:60 | Filtering distributes over concatenation |
| Seqs.EmbedsMembers | src/components/FunctionLibrary.tsx:30-34 | Everything in a subsequence is in the sequence it embeds in |
| Text.Lower | src/components/FunctionLibrary.tsx:31 | Lower-casing keeps the length and folds each character on its own |
| Text.LowerIdempotent | src/components/FunctionLibrary.tsx:31 | Lower-casing twice equals lower-casing once |
| Text.ContainsIffOccurs | src/components/FunctionLibrary.tsx:31 | `includes` holds exactly when the needle occurs at some index of the haystack |
| Text.Contains | src/components/FunctionLibrary.tsx:31 | `includes`: a match needs a needle no longer than the haystack, and a prefix always matches. `ContainsIffOccurs` proves it equal to the reference definition of an occurrence |
| Text.Decimal | src/components/WorkflowBuilder.tsx:89 | The count in the run notice is a non-empty string of decimal digits, with no leading zero: it starts with '0' exactly when the count is 0, and a count below 10 is one digit |
| Text.DecimalRoundTrip | src/components/WorkflowBuilder.tsx:89 | Reading the rendered count back as a decimal number gives the count |
| FunctionLibrary.InitialLibrary | src/components/FunctionLibrary.tsx:14-15 | The panel opens with an empty search and the "All" chip |
| FunctionLibrary.Catalogue | src/components/FunctionLibrary.tsx:17-26 | Eight entries with ids 1 to 8 in display order. Every category is one of the chips other than "All" |
| FunctionLibrary.MatchesSearch | src/components/FunctionLibrary.tsx:31 | An empty search admits every entry, and a term longer than the name never matches. `ResultsContainSearchTerm` states the match against the reference definition of an occurrence |
| FunctionLibrary.MatchesFilter | src/components/FunctionLibrary.tsx:32 | The "All" chip admits every entry. Any other chip admits exactly the entries of its category |
| FunctionLibrary.FilteredFunctions | src/components/FunctionLibrary.tsx:30-34 | The listing is an order-preserving subsequence of the catalogue. Every listed entry passes the search and category tests, and a chip other than "All" admits only its own category |
| FunctionLibrary.ListsExactlyTheMatches | src/components/FunctionLibrary.tsx:30-34 | Listed entries come from the catalogue, and every entry passing both tests is listed |
| FunctionLibrary.InitialListsEverything | src/components/FunctionLibrary.tsx:14-34 | With the initial state the listing is the whole catalogue |
| FunctionLibrary.ResultsContainSearchTerm | src/components/FunctionLibrary.tsx:31 | Every listed name, lower-cased, contains the lower-cased search term |
| FunctionLibrary.SearchIgnoresCase | src/components/FunctionLibrary.tsx:31 | Searching for the lower-cased term gives the same listing |
| FunctionLibrary.EmptySearchListsTheCategory | src/components/FunctionLibrary.tsx:30-34 | With an empty search, a chip other than "All" lists exactly the catalogue entries of its category, in catalogue order |
| FunctionLibrary.CategoryPrefix | src/components/FunctionLibrary.tsx:30-34 | When a category's entries form a prefix of the catalogue, filtering by that category returns the prefix |
| FunctionLibrary.HumanChipListsTheFaceEntries | src/components/FunctionLibrary.tsx:17-34 | On the shipped catalogue, the "Human" chip with an empty search lists "Change Face" and "Change Ethnicity" and nothing else |
| DragGesture.DragStart | src/components/WorkflowSteps.tsx:19-21 | Drag start tracks the started card, whatever the state was |
| DragGesture.DragEnd | src/components/WorkflowSteps.tsx:31-33 | Drag end goes back to idle from any state |
| WorkflowStepsPanel.DragOver | src/components/WorkflowSteps.tsx:23-29 | A request is emitted exactly when a drag is in progress over a different card. It is (tracked, hovered) and the hovered card becomes tracked; otherwise the state is unchanged |
| WorkflowStepsPanel.Draggable | src/components/WorkflowSteps.tsx:79 | A card is draggable exactly when it is a function step, though the rule is written as "neither input nor output" |
| WorkflowStepsPanel.RepeatedHoverEmitsOnce | src/components/WorkflowSteps.tsx:23-29 | Hovering the same card twice emits one request |
| WorkflowStepsPanel.GestureEmitsOneRequest | src/components/WorkflowSteps.tsx:19-33 | Start, over, end emits (start, over) and ends idle |
| WorkflowStepsPanel.DeleteButton | src/components/WorkflowSteps.tsx:124-147 | The delete button exists exactly on cards that are neither input nor output, and it deletes the card's own id |
| WorkflowStepsPanel.DeleteButtonOnMiddleCards | src/components/WorkflowSteps.tsx:124-147 | On a well-formed list the delete button is on exactly the middle cards |
| WorkflowStepsPanel.Deliver | src/components/WorkflowSteps.tsx:71-81 | A request from this panel, given to the reorder handler, keeps the length and is a no-op for equal positions |
| WorkflowStepsPanel.DeliverMovesTheNextCard | src/components/WorkflowSteps.tsx:71-81 | Full positions p, q before the last function card, the input card included, are read as function indices: the step at p + 1, not the dragged step at p, moves to q + 1 |
| WorkflowStepsPanel.DeliverOverLastCardIsNoOp | src/components/WorkflowSteps.tsx:71-81 | Dragging from or hovering over the last function card or the output changes nothing |
| WorkflowStepsPanel.DragFirstOverSecond | src/components/WorkflowSteps.tsx:23-29 | On input, F1, F2, F3, output, dragging F1 over F2 gives input, F1, F3, F2, output, which differs from moving F1 to F2's slot |
| InputOutputPanel.DragOver | src/components/InputOutput.tsx:36-47 | The guard short-circuits. Reading a missing card's type throws. A request is emitted exactly when a drag is in progress over a different card and both cards exist and are function steps |
| InputOutputPanel.Draggable | src/components/InputOutput.tsx:88 | A card is draggable exactly when it is neither the input nor the output, though the rule is written as "is a function step" |
| InputOutputPanel.RequestsAvoidEndpoints | src/components/InputOutput.tsx:41-42 | On a well-formed list an emitted request never names position 0 or the last position |
| InputOutputPanel.NoErrorWithinTheList | src/components/InputOutput.tsx:32-47 | A drag started on a card of the list never throws over another card of it |
| InputOutputPanel.StaleDragThrows | src/components/InputOutput.tsx:41 | If the tracked card is gone, hovering another card throws |
| InputOutputPanel.DraggableRulesAgree | src/components/InputOutput.tsx:88 | Only function cards are draggable, the same set of cards as the other panel allows |
| InputOutputPanel.PanelsDisagreeOverInput | src/components/InputOutput.tsx:38-43 | Over the input card the steps panel requests (1, 0) while this panel requests nothing |
| InputOutputPanel.DeleteButton | src/components/InputOutput.tsx:139-149 | Every card, input and output included, has a delete button. It names an id present in the list, and deleting that id removes the card itself |
| InputOutputPanel.InputCardDeletesInput | src/components/InputOutput.tsx:139-149 | The input card's delete removes the input from the initial list, which the other panel never offers |
| ZoomControls.Clamp | src/components/ui/zoom-controls.tsx:18 | The clamp lies in [25, 200], is the identity inside, and gives 25 below and 200 above |
| ZoomControls.ClampIdempotent | src/components/ui/zoom-controls.tsx:18 | Clamping twice equals clamping once |
| ZoomControls.UpdateZoom | src/components/ui/zoom-controls.tsx:17-21 | Stores the one-element array holding the clamp of the value, so 300 stores [200] and 0 stores [25]. Reports the same array and keeps in-range values |
| ZoomControls.ZoomIn | src/components/ui/zoom-controls.tsx:24 | One step up, capped at 200; strictly up below 200 |
| ZoomControls.ZoomOut | src/components/ui/zoom-controls.tsx:23 | One step down, floored at 25; strictly down above 25 |
| ZoomControls.SliderChange | src/components/ui/zoom-controls.tsx:25 | The slider applies the update to its first value, and the array reported to the owner is the one stored |
| ZoomControls.Apply | src/components/ui/zoom-controls.tsx:23-25 | One action stores a one-element array: zoom-in and zoom-out store what their buttons store, and a slider report stores the update of its first value |
| ZoomControls.ZoomStopsAtTheEnds | src/components/ui/zoom-controls.tsx:23-24 | Zoom-in at 200 stays 200 and zoom-out at 25 stays 25 |
| ZoomControls.InOutRoundTrip | src/components/ui/zoom-controls.tsx:23-24 | In then out returns z for z in [25, 175]; out then in returns z for z in [50, 200] |
| ZoomControls.ZoomStaysInRange | src/components/ui/zoom-controls.tsx:11-25 | Any sequence of button presses and slider reports, each report carrying at least one value, keeps a single in-range value |
| ZoomControls.ButtonsKeepMultiplesOfStep | src/components/ui/zoom-controls.tsx:11-24 | With the buttons alone, the level stays a multiple of 25 |
| Navigation.InitialNav | src/pages/Index.tsx:7-8 | The page starts on the dashboard with nothing selected |
| Navigation.Create | src/pages/Index.tsx:10-13 | Create opens the builder with nothing selected, from any state |
| Navigation.Edit | src/pages/Index.tsx:15-18 | Edit opens the builder on the given workflow, from any state |
| Navigation.Back | src/pages/Index.tsx:20-23 | Back returns to the dashboard with nothing selected, from any state |
| Navigation.BackIsInitial | src/pages/Index.tsx:15-23 | Back after create or edit is the initial state |
| Navigation.BuilderTitle | src/components/WorkflowBuilder.tsx:110-112 | The title is the workflow's name unless it is absent or empty, in which case it is "New Workflow" |
| Navigation.TitlesAfterNavigation | src/pages/Index.tsx:10-18 | A created workflow is titled "New Workflow"; an edited one with a name is titled by its name |

## Left out

- Rendering, CSS classes, icons, badges (`getStepIcon`, `getStepBadgeColor`) and tooltips: presentation only.
- Showing toasts: a notice is returned as a `Toast` value, and displaying it is I/O.
- `Date.now()`: the new step's id is a parameter. Two adds in the same millisecond would share an id, so uniqueness appears only as a lemma hypothesis.
- React scheduling. Add, reorder and the delete notice read the list captured at render time, while delete's filter uses a functional update on the latest list. The model applies every handler to one current list.
- The `setTimeout` promise created on every render of the alternative panel: a timer with no observable effect.
- Commented-out code: the older reorder body in the builder and the older card layout in the alternative panel.
- The preview canvas and the dashboard's sample data: display only, not part of this model.
- Full Unicode `toLowerCase`: the model folds only the ASCII letters A to Z.
- Zoom is an integer, not a JavaScript number. Every value the buttons reach is a multiple of 25.
- ZoomControls.SliderChange: requires a non-empty value array, because the slider always reports one value per thumb. With an empty array the source would store `NaN`.
- ZoomControls.ZoomStaysInRange: covers only slider reports carrying at least one value, as do `ZoomControls.Apply` and `ZoomControls.ApplyAll`. An empty report, which the slider never sends, would store `NaN` and is outside the model.
- The native drag of the input card's thumbnail image, which could start a drag on a card that is not draggable: browser behaviour outside the handlers.
- Navigation remounts the builder, so an edited workflow always opens on the initial two-step list. Only the title depends on the workflow.
- The search box and category chips simply set `searchTerm` / `activeFilter`. `LibraryState` is that pair, and the listing is a function of it.
- The Settings button only shows a fixed notice, and the Edit buttons do nothing.
- The builder renders the steps panel, never the alternative panel, so the alternative panel's requests are modelled but not wired to the reorder handler.
- WorkflowBuilder.ReorderSteps: its own contract covers only length and the no-op cases. What an in-range reorder does is stated by `ReorderAtFunctionPositions`, `ReorderPermutes`, `ReorderKeepsWellFormed` and `ReorderRoundTrip`, and the position results hold for well-formed lists only.

=== FILE: drag_gesture.dfy ===
/**
 The drag gesture shared by the two step panels: a panel remembers the index of the
 card being dragged (`draggedItem`, null when no drag is in progress), and a drag-over
 may hand one reorder request to the builder. Both indices in a request are positions
 in the FULL step list the panel renders.
 */
module DragGesture {
  import opened Wrappers

  /** `draggedItem`: null, or the full-list index of the card being dragged. */
  datatype DragState = Idle | Dragging(position: nat)

  /** The arguments of one `onReorderSteps(dragIndex, hoverIndex)` call, as the panels
      produce them: full-list positions of the dragged card and of the hovered card. */
  datatype ReorderRequest = ReorderRequest(dragPosition: nat, hoverPosition: nat)

  /** The state after a drag-over and the reorder request it emitted, if any. */
  datatype Transition = Transition(next: DragState, request: Option<ReorderRequest>)

  /** `handleDragStart(index)`: whatever was tracked before, the started card is tracked now. */
  function DragStart(state: DragState, index: nat): (r: DragState)
    ensures r.Dragging? && r.position == index
  {
    Dragging(index)
  }

  /** `handleDragEnd`: back to "nothing dragged" from any state. */
  function DragEnd(state: DragState): (r: DragState)
    ensures r.Idle?
  {
    Idle
  }

  /** The emitting branch of both panels' drag-over: request (tracked, hover) and track
      the hovered card from now on. */
  function Emit(position: nat, index: nat): (t: Transition)
    ensures t.next == Dragging(index)
    ensures t.request == Some(ReorderRequest(position, index))
  {
    Transition(Dragging(index), Some(ReorderRequest(position, index)))
  }

  /** The quiet branch: no request, nothing changes. */
  function Stay(state: DragState): (t: Transition)
    ensures t.next == state && t.request.None?
  {
    Transition(state, None)
  }
}

=== FILE: function_library.dfy ===
/**
 The function library panel: a fixed catalogue of image operations, a search term
 and a category filter, and the filtered list the panel shows. Clicking a listed
 entry hands that entry to the workflow builder's add operation.
 */
module FunctionLibrary {
  import Seqs
  import Text

  /** One catalogue entry; the icon component is presentation and is not modelled. */
  datatype Entry = Entry(id: nat, name: string, category: string, description: string)

  /** The catalogue the panel ships with, in display order. */
  function Catalogue(): (c: seq<Entry>)
    ensures |c| == 8
    ensures forall i :: 0 <= i < |c| ==> c[i].id == i + 1
    ensures forall i :: 0 <= i < |c| ==> c[i].category in Filters[1..]
  {
    [ Entry(1, "Change Face", "Human", "Replace or modify facial features"),
      Entry(2, "Change Ethnicity", "Human", "Adjust ethnic characteristics"),
      Entry(3, "Clip to Subject", "Background", "Extract main subject from image"),
      Entry(4, "Color Background", "Background", "Change background color"),
      Entry(5, "Gen AI Erase", "Background", "Remove unwanted elements"),
      Entry(6, "Style Transfer", "Image", "Apply artistic styles"),
      Entry(7, "Enhance Quality", "Image", "Improve image resolution"),
      Entry(8, "Remove Background", "Background", "Complete background removal") ]
  }

  /** The category chips, "All" first. */
  const Filters: seq<string> := ["All", "Human", "Background", "Image"]

  /** The panel's two pieces of state: the search box text and the active category chip. */
  datatype LibraryState = LibraryState(searchTerm: string, activeFilter: string)

  /** The panel opens with an empty search and the "All" chip active. */
  function InitialLibrary(): (st: LibraryState)
    ensures st.searchTerm == [] && st.activeFilter == Filters[0]
  {
    LibraryState("", "All")
  }

  /** The search test: the lower-cased name includes the lower-cased search term. */
  function MatchesSearch(e: Entry, searchTerm: string): (b: bool)
    ensures searchTerm == "" ==> b
    ensures b ==> |searchTerm| <= |e.name|
  {
    Text.ContainsEmpty(Text.Lower(e.name));
    Text.Contains(Text.Lower(e.name), Text.Lower(searchTerm))
  }

  /** The category test: "All" admits every entry, any other chip only its own category. */
  function MatchesFilter(e: Entry, activeFilter: string): (b: bool)
    ensures activeFilter == Filters[0] ==> b
    ensures activeFilter != Filters[0] ==> (b <==> e.category == activeFilter)
  {
    activeFilter == "All" || e.category == activeFilter
  }

  /** An entry is listed iff it passes both the search test and the category test. */
  predicate Listed(e: Entry, st: LibraryState)
  {
    MatchesSearch(e, st.searchTerm) && MatchesFilter(e, st.activeFilter)
  }

  /** The listing test of a state, as the predicate handed to `filter`. */
  function ListedIn(st: LibraryState): Entry -> bool
  {
    e => Listed(e, st)
  }

  /** The entries the panel lists for the given state, in catalogue order. */
  function FilteredFunctions(catalogue: seq<Entry>, st: LibraryState): (r: seq<Entry>)
    ensures Seqs.Embeds(r, catalogue)
    ensures forall i :: 0 <= i < |r| ==> MatchesSearch(r[i], st.searchTerm) && MatchesFilter(r[i], st.activeFilter)
    ensures st.activeFilter != "All" ==> forall i :: 0 <= i < |r| ==> r[i].category == st.activeFilter
  {
    Seqs.FilterEmbeds(catalogue, ListedIn(st));
    Seqs.Filter(catalogue, ListedIn(st))
  }

  /** The listing is exact: every entry it shows comes from the catalogue, and every
      catalogue entry that passes both tests is shown. */
  lemma ListsExactlyTheMatches(catalogue: seq<Entry>, st: LibraryState)
    ensures forall i :: 0 <= i < |FilteredFunctions(catalogue, st)| ==> FilteredFunctions(catalogue, st)[i] in catalogue
    ensures forall i :: 0 <= i < |catalogue| && Listed(catalogue[i], st) ==> catalogue[i] in FilteredFunctions(catalogue, st)
  {
    Seqs.EmbedsMembers(FilteredFunctions(catalogue, st), catalogue);
    Seqs.FilterComplete(catalogue, ListedIn(st));
  }

  /** With the initial state the panel lists the whole catalogue, unchanged. */
  lemma InitialListsEverything(catalogue: seq<Entry>)
    ensures FilteredFunctions(catalogue, InitialLibrary()) == catalogue
  {
    forall i | 0 <= i < |catalogue|
      ensures ListedIn(InitialLibrary())(catalogue[i])
    {
      Text.ContainsEmpty(Text.Lower(catalogue[i].name));
    }
    Seqs.FilterIdentity(catalogue, ListedIn(InitialLibrary()));
  }

  /** Every listed name contains the search term, ignoring ASCII case. */
  lemma ResultsContainSearchTerm(catalogue: seq<Entry>, st: LibraryState, i: nat)
    requires i < |FilteredFunctions(catalogue, st)|
    ensures Text.Occurs(Text.Lower(FilteredFunctions(catalogue, st)[i].name), Text.Lower(st.searchTerm))
  {
    var e := FilteredFunctions(catalogue, st)[i];
    Text.ContainsIffOccurs(Text.Lower(e.name), Text.Lower(st.searchTerm));
  }

  /** The result does not depend on the case of the search term: searching for its
      lower-cased form gives the same list. */
  lemma SearchIgnoresCase(catalogue: seq<Entry>, st: LibraryState)
    ensures FilteredFunctions(catalogue, st.(searchTerm := Text.Lower(st.searchTerm)))
         == FilteredFunctions(catalogue, st)
  {
    var folded := st.(searchTerm := Text.Lower(st.searchTerm));
    Text.LowerIdempotent(st.searchTerm);
    Seqs.FilterCongruent(catalogue, ListedIn(folded), ListedIn(st));
  }

  /** The category test alone, as the predicate handed to `filter`. */
  function InCategory(category: string): Entry -> bool
  {
    (e: Entry) => e.category == category
  }

  /** With an empty search, a chip other than "All" lists exactly its category. */
  lemma EmptySearchListsTheCategory(catalogue: seq<Entry>, chip: string)
    requires chip != Filters[0]
    ensures FilteredFunctions(catalogue, LibraryState("", chip)) == Seqs.Filter(catalogue, InCategory(chip))
  {
    var st := LibraryState("", chip);
    forall i | 0 <= i < |catalogue|
      ensures ListedIn(st)(catalogue[i]) == InCategory(chip)(catalogue[i])
    {
      Text.ContainsEmpty(Text.Lower(catalogue[i].name));
    }
    Seqs.FilterCongruent(catalogue, ListedIn(st), InCategory(chip));
  }

  /** In the shipped catalogue the "Human" entries are exactly the first two. */
  lemma HumanEntriesComeFirst()
    ensures forall i :: 0 <= i < 2 ==> InCategory("Human")(Catalogue()[i])
    ensures forall i :: 2 <= i < |Catalogue()| ==> !InCategory("Human")(Catalogue()[i])
  {
  }

  /** When the entries of a category form a prefix of the catalogue, the category
      filter returns that prefix. */
  lemma {:induction false} CategoryPrefix(catalogue: seq<Entry>, category: string, n: nat)
    requires n <= |catalogue|
    requires forall i :: 0 <= i < n ==> InCategory(category)(catalogue[i])
    requires forall i :: n <= i < |catalogue| ==> !InCategory(category)(catalogue[i])
    ensures Seqs.Filter(catalogue, InCategory(category)) == catalogue[..n]
  {
    var head, tail := catalogue[..n], catalogue[n..];
    assert catalogue == head + tail;
    Seqs.FilterConcat(head, tail, InCategory(category));
    assert forall i :: 0 <= i < |tail| ==> !InCategory(category)(tail[i]) by {
      forall i | 0 <= i < |tail| ensures !InCategory(category)(tail[i]) { assert tail[i] == catalogue[i + n]; }
    }
    Seqs.FilterNone(tail, InCategory(category));
    Seqs.FilterIdentity(head, InCategory(category));
    assert head + [] == head;
  }

  /** On the shipped catalogue, the "Human" chip with an empty search lists the two
      face entries, in catalogue order, and nothing else. */
  lemma HumanChipListsTheFaceEntries()
    ensures FilteredFunctions(Catalogue(), LibraryState("", "Human")) == Catalogue()[..2]
  {
    HumanEntriesComeFirst();
    CategoryPrefix(Catalogue(), "Human", 2);
    EmptySearchListsTheCategory(Catalogue(), "Human");
  }
}

=== FILE: input_output.dfy ===
/**
 The alternative step panel. It renders every step as a card, lets only function
 cards be dragged, and guards its drag-over by the types of both cards, so it never
 requests a reorder that names the input or the output. Unlike the other panel, it
 shows the delete button on every card, the input and output included.
 */
module InputOutputPanel {
  import opened Wrappers
  import opened DragGesture
  import opened WorkflowBuilder
  import WorkflowStepsPanel

  /** Only function cards are draggable. */
  function Draggable(st: Step): (b: bool)
    ensures b <==> !st.kind.Input? && !st.kind.Output?
  {
    st.kind.Function?
  }

  /** A drag-over either throws (it reads `.type` of an array slot that does not
      exist) or is handled. */
  datatype OverOutcome = TypeError | Handled(transition: Transition)

  /**
   `handleDragOver(index)`. The guard is evaluated left to right and stops at the
   first false conjunct: a drag must be in progress over a different card, then the
   dragged card's type is read, then the hovered card's. Reading the type of a
   missing card throws.
   */
  function DragOver(steps: seq<Step>, state: DragState, index: nat): (o: OverOutcome)
    ensures o.TypeError? <==>
      state.Dragging? && state.position != index &&
      (state.position >= |steps| || (steps[state.position].kind.Function? && index >= |steps|))
    ensures o.Handled? && o.transition.request.Some? <==>
      state.Dragging? && state.position != index && state.position < |steps| && index < |steps| &&
      steps[state.position].kind.Function? && steps[index].kind.Function?
    ensures o.Handled? && o.transition.request.Some? ==>
      o.transition.request.value == ReorderRequest(state.position, index) && o.transition.next == Dragging(index)
    ensures o.Handled? && o.transition.request.None? ==> o.transition.next == state
  {
    if state.Idle? || state.position == index then Handled(Stay(state))
    else if state.position >= |steps| then TypeError
    else if !Draggable(steps[state.position]) then Handled(Stay(state))
    else if index >= |steps| then TypeError
    else if !Draggable(steps[index]) then Handled(Stay(state))
    else Handled(Emit(state.position, index))
  }

  /** The delete button of the card at `index`: every card has one, and it asks to
      delete that card's own id. */
  function DeleteButton(steps: seq<Step>, index: nat): (stepId: string)
    requires index < |steps|
    ensures stepId in Ids(steps) && Position(steps, stepId) <= index
    ensures steps[index] !in DeleteStep(steps, stepId).steps
  {
    steps[index].id
  }

  /** Over a well-formed list, an emitted request names two function cards: never
      the input at position 0 and never the output at the last position. */
  lemma RequestsAvoidEndpoints(steps: seq<Step>, state: DragState, index: nat)
    requires WellFormed(steps)
    requires DragOver(steps, state, index).Handled? && DragOver(steps, state, index).transition.request.Some?
    ensures 0 < DragOver(steps, state, index).transition.request.value.dragPosition < |steps| - 1
    ensures 0 < DragOver(steps, state, index).transition.request.value.hoverPosition < |steps| - 1
  {
  }

  /** A drag started on a card of the current list never throws when it passes over
      another card of that list. */
  lemma NoErrorWithinTheList(steps: seq<Step>, state: DragState, start: nat, index: nat)
    requires start < |steps| && index < |steps|
    ensures DragOver(steps, DragStart(state, start), index).Handled?
  {
  }

  /** The error path: if the list shrinks under a drag in progress, so that the tracked
      card is gone, hovering any other card throws. */
  lemma StaleDragThrows(steps: seq<Step>, position: nat, index: nat)
    requires |steps| <= position && index != position
    ensures DragOver(steps, Dragging(position), index).TypeError?
  {
  }

  /** The two panels agree on which cards can be dragged: a step is neither input nor
      output exactly when it is a function step. */
  lemma DraggableRulesAgree(st: Step)
    ensures Draggable(st) <==> WorkflowStepsPanel.Draggable(st)
  {
  }

  /** The panels disagree on drop targets. On a well-formed list with a function card
      at position 1, dragging it over the input card makes the steps panel request
      (1, 0), while this panel requests nothing. */
  lemma PanelsDisagreeOverInput(steps: seq<Step>)
    requires WellFormed(steps) && 3 <= |steps|
    ensures WorkflowStepsPanel.DragOver(Dragging(1), 0).request == Some(ReorderRequest(1, 0))
    ensures DragOver(steps, Dragging(1), 0) == Handled(Transition(Dragging(1), None))
  {
    assert IsFunctionStep(steps[1]);
  }

  /** Unlike the steps panel, this panel lets the input be deleted: on the initial
      list, the input card's delete button leaves only the output. */
  lemma InputCardDeletesInput()
    ensures DeleteButton(InitialSteps(), 0) == "input"
    ensures DeleteStep(InitialSteps(), DeleteButton(InitialSteps(), 0)).steps == [InitialSteps()[1]]
    ensures WorkflowStepsPanel.DeleteButton(InitialSteps(), 0).None?
  {
    DeleteInputIsUnguarded();
  }
}

=== FILE: navigation.dfy ===
/**
 The page that switches between the workflow dashboard and the builder. It holds
 which view is shown and the workflow chosen for editing (none when creating a new
 one); the builder shows that workflow's name as its title.
 */
module Navigation {
  import opened Wrappers

  datatype View = Dashboard | Builder

  /** A workflow record as the dashboard hands it over; only its name is read. */
  datatype Workflow = Workflow(id: nat, name: string)

  /** `currentView` and `selectedWorkflow`. */
  datatype Nav = Nav(view: View, selected: Option<Workflow>)

  /** The page opens on the dashboard with nothing selected. */
  function InitialNav(): (n: Nav)
    ensures n.view.Dashboard? && n.selected.None?
  {
    Nav(Dashboard, None)
  }

  /** `handleCreateWorkflow`: open the builder with nothing selected. */
  function Create(n: Nav): (r: Nav)
    ensures r.view.Builder? && r.selected.None?
  {
    Nav(Builder, None)
  }

  /** `handleEditWorkflow(w)`: open the builder on `w`. */
  function Edit(n: Nav, w: Workflow): (r: Nav)
    ensures r.view.Builder? && r.selected == Some(w)
  {
    Nav(Builder, Some(w))
  }

  /** `handleBackToDashboard`: back to the dashboard, forgetting the selection. */
  function Back(n: Nav): (r: Nav)
    ensures r.view.Dashboard? && r.selected.None?
  {
    Nav(Dashboard, None)
  }

  /** The builder's heading, `workflow?.name || "New Workflow"`: an absent workflow and
      a workflow whose name is the empty string (falsy) both fall back to the default. */
  function BuilderTitle(workflow: Option<Workflow>): (title: string)
    ensures workflow.Some? && workflow.value.name != "" ==> title == workflow.value.name
    ensures title == "New Workflow" <==>
      workflow.None? || workflow.value.name == "" || workflow.value.name == "New Workflow"
  {
    if workflow.Some? && workflow.value.name != "" then workflow.value.name else "New Workflow"
  }

  /** Going back, after whatever happened before, is the same as starting afresh. */
  lemma BackIsInitial(n: Nav, w: Workflow)
    ensures Back(Edit(n, w)) == InitialNav()
    ensures Back(Create(n)) == InitialNav()
  {
  }

  /** A new workflow is titled "New Workflow"; an edited one with a name is titled by it. */
  lemma TitlesAfterNavigation(n: Nav, w: Workflow)
    ensures BuilderTitle(Create(n).selected) == "New Workflow"
    ensures w.name != "" ==> BuilderTitle(Edit(n, w).selected) == w.name
  {
  }
}

=== FILE: seqs.dfy ===
/**
 The JavaScript array operations the editor is built from — `filter`, `findIndex` and
 `splice` — stated over immutable sequences, together with the order relation
 ("is a subsequence of") that the filters promise.
 */
module Seqs {

  /** The elements of `s` that satisfy `p`, in their original order (`Array.prototype.filter`). */
  function Filter<T(==)>(s: seq<T>, p: T -> bool): (r: seq<T>)
    ensures |r| <= |s|
    ensures forall i :: 0 <= i < |r| ==> p(r[i])
  {
    if |s| == 0 then []
    else if p(s[0]) then [s[0]] + Filter(s[1..], p)
    else Filter(s[1..], p)
  }

  /** `a` can be obtained from `b` by deleting elements: an order-preserving subsequence. */
  predicate Embeds<T(==)>(a: seq<T>, b: seq<T>)
    decreases |b|
  {
    || |a| == 0
    || (|b| > 0 && ((a[0] == b[0] && Embeds(a[1..], b[1..])) || Embeds(a, b[1..])))
  }

  /** `Array.prototype.findIndex`: the first index whose element satisfies `p`, or -1. */
  function FindIndex<T>(s: seq<T>, p: T -> bool): (r: int)
    ensures -1 <= r < |s|
    ensures r == -1 <==> forall i :: 0 <= i < |s| ==> !p(s[i])
    ensures 0 <= r ==> p(s[r]) && forall i :: 0 <= i < r ==> !p(s[i])
  {
    if |s| == 0 then -1
    else if p(s[0]) then 0
    else
      var k := FindIndex(s[1..], p);
      if k == -1 then -1 else k + 1
  }

  /** The position `splice(start, …)` acts on in an array of length `len`: a negative
      start counts back from the end (but not past 0), a start beyond the end is the end. */
  function SpliceStart(start: int, len: nat): (k: nat)
    ensures k <= len
    ensures 0 <= start <= len ==> k == start
    ensures start < 0 && len + start >= 0 ==> k == len + start
    ensures start < 0 && len + start < 0 ==> k == 0
    ensures start > len ==> k == len
  {
    if start < 0 then (if len + start < 0 then 0 else len + start)
    else if start > len then len
    else start
  }

  /** `splice(k, 0, x)`: `x` inserted so that it ends up at index `k`. */
  function Insert<T>(s: seq<T>, k: nat, x: T): (r: seq<T>)
    requires k <= |s|
    ensures |r| == |s| + 1
    ensures r[k] == x
    ensures forall i :: 0 <= i < k ==> r[i] == s[i]
    ensures forall i :: k < i < |r| ==> r[i] == s[i - 1]
  {
    s[..k] + [x] + s[k..]
  }

  /** Inserting in front of the last element, seen without the first and last elements:
      the old middle with the new element appended. */
  lemma InsertBeforeLastMiddle<T>(s: seq<T>, x: T)
    requires 2 <= |s|
    ensures Insert(s, |s| - 1, x)[1..|s|] == s[1..|s| - 1] + [x]
  {
    var r := Insert(s, |s| - 1, x);
    assert r == s[..|s| - 1] + [x] + [s[|s| - 1]];
  }

  /** `splice(k, 1)`: the element at index `k` taken out. */
  function RemoveAt<T>(s: seq<T>, k: nat): (r: seq<T>)
    requires k < |s|
    ensures |r| == |s| - 1
    ensures forall i :: 0 <= i < k ==> r[i] == s[i]
    ensures forall i :: k <= i < |r| ==> r[i] == s[i + 1]
  {
    s[..k] + s[k + 1..]
  }

  /**
   The splice-remove / splice-insert pair of a drag reorder: the element at `from`
   is taken out and put back so that it lands at index `to`. Where every other
   element ends up is stated by `MoveAt` and `MoveSourceMap`.
   */
  function Move<T(==)>(s: seq<T>, from: nat, to: nat): (r: seq<T>)
    requires from < |s| && to < |s|
    ensures |r| == |s|
    ensures r[to] == s[from]
    ensures from == to ==> r == s
  {
    var t := RemoveAt(s, from);
    assert s == s[..from] + [s[from]] + s[from + 1..];
    assert from == to ==> t[..to] == s[..from] && t[to..] == s[from + 1..];
    Insert(t, to, s[from])
  }

  /** Which index of the original a position of `Move(s, from, to)` is taken from:
      outside the range between the two indices nothing moves, inside it everything
      shifts by one toward the vacated slot. */
  function MoveSource(i: nat, from: nat, to: nat): nat
  {
    if i == to then from
    else if from <= i < to then i + 1
    else if to < i <= from then i - 1
    else i
  }

  /** Position `i` of a move holds the element at `MoveSource(i, from, to)`. */
  lemma MoveAt<T>(s: seq<T>, from: nat, to: nat, i: nat)
    requires from < |s| && to < |s| && i < |s|
    ensures MoveSource(i, from, to) < |s|
    ensures Move(s, from, to)[i] == s[MoveSource(i, from, to)]
  {
    var t := RemoveAt(s, from);
    var r := Insert(t, to, s[from]);
    assert r == Move(s, from, to);
    if i < to {
      assert r[i] == t[i];
    } else if i > to {
      assert r[i] == t[i - 1];
    }
  }

  /** `Move` rearranges by an injective index map, so it neither duplicates nor loses
      an element. */
  lemma MoveSourceMap<T>(s: seq<T>, from: nat, to: nat)
    requires from < |s| && to < |s|
    ensures forall i :: 0 <= i < |s| ==> MoveSource(i, from, to) < |s| && Move(s, from, to)[i] == s[MoveSource(i, from, to)]
    ensures forall i, j :: 0 <= i < j < |s| ==> MoveSource(i, from, to) != MoveSource(j, from, to)
  {
    forall i | 0 <= i < |s|
      ensures MoveSource(i, from, to) < |s| && Move(s, from, to)[i] == s[MoveSource(i, from, to)]
    {
      MoveAt(s, from, to, i);
    }
  }

  /** A move toward the front, in slices: the element at `from` is taken out and put
      back in front of the element that was at `to`. */
  lemma MoveBackward<T>(s: seq<T>, from: nat, to: nat)
    requires to < from < |s|
    ensures Move(s, from, to) == s[..to] + [s[from]] + s[to..from] + s[from + 1..]
  {
    var r := s[..to] + [s[from]] + s[to..from] + s[from + 1..];
    forall i | 0 <= i < |s|
      ensures Move(s, from, to)[i] == r[i]
    {
      MoveAt(s, from, to, i);
    }
  }

  /** A move toward the back, in slices: the element at `from` is taken out and put
      back just after the element that was at `to`. */
  lemma MoveForward<T>(s: seq<T>, from: nat, to: nat)
    requires from < to < |s|
    ensures Move(s, from, to) == s[..from] + s[from + 1..to + 1] + [s[from]] + s[to + 1..]
  {
    var r := s[..from] + s[from + 1..to + 1] + [s[from]] + s[to + 1..];
    forall i | 0 <= i < |s|
      ensures Move(s, from, to)[i] == r[i]
    {
      MoveAt(s, from, to, i);
    }
  }

  /** A move is a permutation: the same elements, each as often as before. */
  lemma MovePermutes<T>(s: seq<T>, from: nat, to: nat)
    requires from < |s| && to < |s|
    ensures multiset(Move(s, from, to)) == multiset(s)
  {
    var t := RemoveAt(s, from);
    assert s == s[..from] + [s[from]] + s[from + 1..];
    assert t == s[..from] + s[from + 1..];
    assert multiset(s) == multiset(t) + multiset{s[from]};
    assert t == t[..to] + t[to..];
    assert Move(s, from, to) == t[..to] + [s[from]] + t[to..];
  }

  /** Moving an element back to where it came from undoes the move. */
  lemma MoveInverse<T>(s: seq<T>, from: nat, to: nat)
    requires from < |s| && to < |s|
    ensures Move(Move(s, from, to), to, from) == s
  {
    var m := Move(s, from, to);
    var r := Move(m, to, from);
    forall i | 0 <= i < |s|
      ensures r[i] == s[i]
    {
      MoveAt(m, to, from, i);
      var j := MoveSource(i, to, from);
      MoveAt(s, from, to, j);
    }
  }

  /** Every sequence is a subsequence of itself. */
  lemma {:induction false} EmbedsReflexive<T>(s: seq<T>)
    ensures Embeds(s, s)
  {
    if |s| > 0 {
      EmbedsReflexive(s[1..]);
    }
  }

  /** Inserting one element keeps the original as a subsequence of the result. */
  lemma {:induction false} EmbedsInsert<T>(s: seq<T>, k: nat, x: T)
    requires k <= |s|
    ensures Embeds(s, Insert(s, k, x))
    decreases k
  {
    var b := Insert(s, k, x);
    if k == 0 {
      assert b[1..] == s;
      EmbedsReflexive(s);
    } else {
      assert b[0] == s[0];
      assert b[1..] == Insert(s[1..], k - 1, x);
      EmbedsInsert(s[1..], k - 1, x);
    }
  }

  /** Everything a subsequence holds is held by the sequence it embeds in. */
  lemma {:induction false} EmbedsMembers<T>(a: seq<T>, b: seq<T>)
    requires Embeds(a, b)
    ensures forall i :: 0 <= i < |a| ==> a[i] in b
    decreases |b|
  {
    if |a| > 0 {
      if a[0] == b[0] && Embeds(a[1..], b[1..]) {
        EmbedsMembers(a[1..], b[1..]);
        forall i | 0 < i < |a|
          ensures a[i] in b
        {
          assert a[i] == a[1..][i - 1];
          assert a[i] in b[1..];
        }
      } else {
        EmbedsMembers(a, b[1..]);
      }
    }
  }

  /** The filter loses no passing element: every element of `s` that satisfies `p`
      is in the result. */
  lemma {:induction false} FilterComplete<T>(s: seq<T>, p: T -> bool)
    ensures forall i :: 0 <= i < |s| && p(s[i]) ==> s[i] in Filter(s, p)
  {
    if |s| > 0 {
      FilterComplete(s[1..], p);
      forall i | 0 < i < |s| && p(s[i])
        ensures s[i] in Filter(s, p)
      {
        assert s[i] == s[1..][i - 1];
      }
    }
  }

  /** The filter returns nothing exactly when no element passes. */
  lemma {:induction false} FilterEmpty<T>(s: seq<T>, p: T -> bool)
    ensures |Filter(s, p)| == 0 <==> forall i :: 0 <= i < |s| ==> !p(s[i])
  {
    if |s| > 0 {
      FilterEmpty(s[1..], p);
      if !p(s[0]) && forall i :: 0 <= i < |s[1..]| ==> !p(s[1..][i]) {
        forall i | 0 < i < |s|
          ensures !p(s[i])
        {
          assert s[i] == s[1..][i - 1];
        }
      }
    }
  }

  /** A filter result is an order-preserving subsequence of its input. */
  lemma {:induction false} FilterEmbeds<T>(s: seq<T>, p: T -> bool)
    ensures Embeds(Filter(s, p), s)
  {
    if |s| > 0 {
      FilterEmbeds(s[1..], p);
    }
  }

  /** The filter keeps every copy of a passing element and no copy of a failing one. */
  lemma {:induction false} FilterCount<T>(s: seq<T>, p: T -> bool, x: T)
    ensures multiset(Filter(s, p))[x] == if p(x) then multiset(s)[x] else 0
  {
    if |s| > 0 {
      FilterCount(s[1..], p, x);
      assert s == [s[0]] + s[1..];
      assert multiset(s) == multiset([s[0]]) + multiset(s[1..]);
      if p(s[0]) {
        assert multiset(Filter(s, p)) == multiset([s[0]]) + multiset(Filter(s[1..], p));
      }
    }
  }

  /** `FilterCount` for every element at once. */
  lemma FilterCounts<T>(s: seq<T>, p: T -> bool)
    ensures forall x :: multiset(Filter(s, p))[x] == if p(x) then multiset(s)[x] else 0
  {
    forall x
      ensures multiset(Filter(s, p))[x] == if p(x) then multiset(s)[x] else 0
    {
      FilterCount(s, p, x);
    }
  }

  /** Filtering distributes over concatenation. */
  lemma {:induction false} FilterConcat<T>(a: seq<T>, b: seq<T>, p: T -> bool)
    ensures Filter(a + b, p) == Filter(a, p) + Filter(b, p)
  {
    if |a| == 0 {
      assert a + b == b;
    } else {
      assert (a + b)[0] == a[0];
      assert (a + b)[1..] == a[1..] + b;
      FilterConcat(a[1..], b, p);
    }
  }

  /** A filter returns its input exactly when every element passes. */
  lemma {:induction false} FilterIdentity<T>(s: seq<T>, p: T -> bool)
    ensures Filter(s, p) == s <==> forall i :: 0 <= i < |s| ==> p(s[i])
  {
    if |s| > 0 && forall i :: 0 <= i < |s| ==> p(s[i]) {
      assert forall i :: 0 <= i < |s[1..]| ==> s[1..][i] == s[i + 1];
      FilterIdentity(s[1..], p);
    }
  }

  /** Filters with predicates that agree on every element give the same result. */
  lemma {:induction false} FilterCongruent<T>(s: seq<T>, p: T -> bool, q: T -> bool)
    requires forall i :: 0 <= i < |s| ==> p(s[i]) == q(s[i])
    ensures Filter(s, p) == Filter(s, q)
  {
    if |s| > 0 {
      FilterCongruent(s[1..], p, q);
    }
  }

  /** A filter that rejects everything returns the empty sequence. */
  lemma {:induction false} FilterNone<T>(s: seq<T>, p: T -> bool)
    requires forall i :: 0 <= i < |s| ==> !p(s[i])
    ensures Filter(s, p) == []
  {
    if |s| > 0 {
      FilterNone(s[1..], p);
    }
  }
}

=== FILE: text.dfy ===
/**
 The string operations the function library's search box relies on: lower-casing
 (`toLowerCase`, folded over ASCII letters only) and substring search (`includes`),
 plus the decimal rendering used in the run notice.
 */
module Text {

  /** ASCII case fold of one character; every other character is left alone. */
  function LowerChar(c: char): (d: char)
    ensures 'A' <= c <= 'Z' ==> 'a' <= d <= 'z' && d as int - c as int == 32
    ensures !('A' <= c <= 'Z') ==> d == c
  {
    if 'A' <= c <= 'Z' then (c as int + 32) as char else c
  }

  /** `toLowerCase`, restricted to the ASCII letters. */
  function Lower(s: string): (r: string)
    ensures |r| == |s|
    ensures forall i :: 0 <= i < |s| ==> r[i] == LowerChar(s[i])
  {
    if |s| == 0 then "" else [LowerChar(s[0])] + Lower(s[1..])
  }

  /** Lower-casing an already lower-cased string changes nothing. */
  lemma LowerIdempotent(s: string)
    ensures Lower(Lower(s)) == Lower(s)
  {
    assert forall i :: 0 <= i < |s| ==> Lower(Lower(s))[i] == Lower(s)[i];
  }

  /** Reference meaning of "`needle` occurs in `hay`": some suffix of `hay` starts with it. */
  ghost predicate Occurs(hay: string, needle: string)
  {
    exists i :: 0 <= i <= |hay| && needle <= hay[i..]
  }

  /** `String.prototype.includes`: does `needle` occur somewhere in `hay`? */
  function Contains(hay: string, needle: string): (b: bool)
    ensures b ==> |needle| <= |hay|
    ensures needle <= hay ==> b
    decreases |hay|
  {
    |needle| <= |hay| && (needle <= hay || Contains(hay[1..], needle))
  }

  /** An occurrence starting at index `i` is found by `Contains`. */
  lemma {:induction false} ContainsOccurrenceAt(hay: string, needle: string, i: nat)
    requires i <= |hay| && needle <= hay[i..]
    ensures Contains(hay, needle)
    decreases i
  {
    if i > 0 {
      assert hay[1..][i - 1..] == hay[i..];
      ContainsOccurrenceAt(hay[1..], needle, i - 1);
    }
  }

  /** `Contains` finds exactly the occurrences that `Occurs` describes. */
  lemma {:induction false} ContainsIffOccurs(hay: string, needle: string)
    ensures Contains(hay, needle) <==> Occurs(hay, needle)
    decreases |hay|
  {
    if Occurs(hay, needle) {
      var i :| 0 <= i <= |hay| && needle <= hay[i..];
      ContainsOccurrenceAt(hay, needle, i);
    }
    if needle <= hay {
      assert hay[0..] == hay;
    } else if Contains(hay, needle) {
      ContainsIffOccurs(hay[1..], needle);
      var i :| 0 <= i <= |hay[1..]| && needle <= hay[1..][i..];
      assert hay[1..][i..] == hay[i + 1..];
    }
  }

  /** The empty string occurs in every string, so an empty search matches everything. */
  lemma ContainsEmpty(hay: string)
    ensures Contains(hay, "")
  {
  }

  /** The decimal digit for `d`. */
  function Digit(d: nat): (c: char)
    requires d < 10
    ensures '0' <= c <= '9'
  {
    ('0' as int + d) as char
  }

  /** The decimal rendering of a count, as a template literal prints it. */
  function Decimal(n: nat): (r: string)
    ensures 1 <= |r|
    ensures forall i :: 0 <= i < |r| ==> '0' <= r[i] <= '9'
    ensures r[0] == '0' <==> n == 0
    ensures n < 10 ==> |r| == 1
  {
    if n < 10 then [Digit(n)] else Decimal(n / 10) + [Digit(n % 10)]
  }

  /** The number a string of decimal digits denotes, most significant digit first. */
  function DecimalValue(r: string): nat
    requires forall i :: 0 <= i < |r| ==> '0' <= r[i] <= '9'
  {
    if |r| == 0 then 0 else 10 * DecimalValue(r[..|r| - 1]) + (r[|r| - 1] as int - '0' as int)
  }

  /** Reading the rendering back gives the count: the notice shows the right number. */
  lemma {:induction false} DecimalRoundTrip(n: nat)
    ensures DecimalValue(Decimal(n)) == n
  {
    if n >= 10 {
      var r := Decimal(n);
      assert r[..|r| - 1] == Decimal(n / 10);
      DecimalRoundTrip(n / 10);
    }
  }
}

=== FILE: workflow_builder.dfy ===
/**
 The workflow builder: the ordered list of steps (one input, the chosen image
 operations, one output) and the handlers that add, delete, reorder and run them.
 Each handler is a pure function from the current list to the next one; the
 notice the builder would pop up is returned as a value.
 */
module WorkflowBuilder {
  import opened Wrappers
  import Seqs
  import Text
  import FunctionLibrary

  /** The `type` of a step, each variant carrying the data the builder stores for it. */
  datatype Kind =
    | Input(thumbnail: string)
    | Output
    | Function(op: FunctionLibrary.Entry, parameters: map<string, string>)

  datatype Step = Step(id: string, kind: Kind, name: string)

  /** A transient notice: title, description and whether it is shown as an error. */
  datatype Toast = Toast(title: string, description: string, destructive: bool)

  /** The list after a handler, and the notice it raised, if any. */
  datatype Update = Update(steps: seq<Step>, toast: Option<Toast>)

  predicate IsFunctionStep(st: Step) { st.kind.Function? }

  predicate IsOutputStep(st: Step) { st.kind.Output? }

  /** The function-only view: the steps whose type is `function`, in list order. */
  function FunctionSteps(s: seq<Step>): seq<Step>
  {
    Seqs.Filter(s, IsFunctionStep)
  }

  function Ids(s: seq<Step>): set<string>
  {
    set i | 0 <= i < |s| :: s[i].id
  }

  predicate UniqueIds(s: seq<Step>)
  {
    forall i, j :: 0 <= i < |s| && 0 <= j < |s| && s[i].id == s[j].id ==> i == j
  }

  /** The shape the editor is meant to keep: input first, output last, only
      function steps between them, and no two steps sharing an id. */
  predicate WellFormed(s: seq<Step>)
  {
    && 2 <= |s|
    && s[0].kind.Input?
    && s[|s| - 1].kind.Output?
    && (forall i :: 0 < i < |s| - 1 ==> IsFunctionStep(s[i]))
    && UniqueIds(s)
  }

  const InputThumbnail: string := "https://images.unsplash.com/photo-1507003211169-0a1dd7228f2d?w=300&h=300&fit=crop"

  /** The list a freshly opened builder holds: the input image and the output. */
  function InitialSteps(): (r: seq<Step>)
    ensures WellFormed(r) && |r| == 2
    ensures FunctionSteps(r) == []
    ensures r[0].id == "input" && r[1].id == "output"
  {
    var r := [Step("input", Input(InputThumbnail), "Input Image"), Step("output", Output, "Output")];
    Seqs.FilterNone(r, IsFunctionStep);
    r
  }

  /** `findIndex(s => s.id === id)`: the first position holding `id`, or -1. */
  function Position(s: seq<Step>, id: string): (k: int)
    ensures -1 <= k < |s|
    ensures k == -1 <==> id !in Ids(s)
    ensures 0 <= k ==> s[k].id == id && forall j :: 0 <= j < k ==> s[j].id != id
  {
    Seqs.FindIndex(s, (st: Step) => st.id == id)
  }

  /** The step `handleAddFunction` builds for a catalogue entry; its id comes from the clock. */
  function NewFunctionStep(freshId: string, func: FunctionLibrary.Entry): (st: Step)
    ensures IsFunctionStep(st) && !IsOutputStep(st)
    ensures st.id == freshId && st.name == func.name
    ensures st.kind.op == func && |st.kind.parameters| == 0
  {
    Step(freshId, Function(func, map[]), func.name)
  }

  function AddedToast(name: string): Toast
  {
    Toast("Function Added", name + " has been added to your workflow.", false)
  }

  function RemovedToast(name: string): Toast
  {
    Toast("Step Removed", name + " has been removed from your workflow.", false)
  }

  /**
   Where the new step is spliced in: the index of the first output step. With no
   output step `findIndex` gives -1, and `splice(-1, 0, …)` counts from the end,
   so the step goes in front of the last element (or at 0 in an empty list).
   */
  function InsertionIndex(s: seq<Step>): (k: nat)
    ensures k <= |s|
    ensures (exists i :: 0 <= i < |s| && IsOutputStep(s[i])) ==>
      k < |s| && IsOutputStep(s[k]) && forall j :: 0 <= j < k ==> !IsOutputStep(s[j])
    ensures (forall i :: 0 <= i < |s| ==> !IsOutputStep(s[i])) ==> k == if |s| == 0 then 0 else |s| - 1
  {
    var o := Seqs.FindIndex(s, IsOutputStep);
    if o == -1 then Seqs.SpliceStart(-1, |s|) else o
  }

  /** `handleAddFunction`: a new function step, with empty parameters, in front of the output. */
  function AddFunction(s: seq<Step>, func: FunctionLibrary.Entry, freshId: string): (r: Update)
    ensures |r.steps| == |s| + 1
    ensures r.steps[InsertionIndex(s)].id == freshId && r.steps[InsertionIndex(s)].name == func.name
    ensures r.steps[InsertionIndex(s)].kind == Function(func, map[])
    ensures InsertionIndex(s) < |s| ==> r.steps[InsertionIndex(s) + 1] == s[InsertionIndex(s)]
    ensures Seqs.RemoveAt(r.steps, InsertionIndex(s)) == s
    ensures r.toast == Some(AddedToast(func.name))
  {
    var k := InsertionIndex(s);
    var steps := Seqs.Insert(s, k, NewFunctionStep(freshId, func));
    assert s == s[..k] + s[k..];
    assert Seqs.RemoveAt(steps, k) == s;
    Update(steps, Some(AddedToast(func.name)))
  }

  /** The filter test of a delete: keep every step whose id differs from `stepId`. */
  function Keeps(stepId: string): Step -> bool
  {
    (st: Step) => st.id != stepId
  }

  /**
   `handleDeleteStep`: drop every step whose id is `stepId`, whatever its type, and
   announce the first such step by name. An absent id changes nothing and raises
   no notice.
   */
  function DeleteStep(s: seq<Step>, stepId: string): (r: Update)
    ensures forall i :: 0 <= i < |r.steps| ==> r.steps[i].id != stepId
    ensures Seqs.Embeds(r.steps, s)
    ensures forall st :: multiset(r.steps)[st] == if st.id == stepId then 0 else multiset(s)[st]
    ensures r.steps == s <==> stepId !in Ids(s)
    ensures r.toast.Some? <==> stepId in Ids(s)
    ensures stepId in Ids(s) ==> 0 <= Position(s, stepId) && r.toast == Some(RemovedToast(s[Position(s, stepId)].name))
  {
    var kept := Seqs.Filter(s, Keeps(stepId));
    Seqs.FilterEmbeds(s, Keeps(stepId));
    Seqs.FilterIdentity(s, Keeps(stepId));
    Seqs.FilterCounts(s, Keeps(stepId));
    var k := Position(s, stepId);
    Update(kept, if k == -1 then None else Some(RemovedToast(s[k].name)))
  }

  /**
   `handleReorderSteps`. Both indices are positions in the FUNCTION-ONLY view. They
   are turned into ids (an index outside the view gives `undefined`, which no step
   id equals, so the handler returns), the ids into full-list positions, and the
   dragged step is spliced out and back in at the hovered step's position.
   */
  function ReorderSteps(s: seq<Step>, dragIndex: int, hoverIndex: int): (r: seq<Step>)
    ensures |r| == |s|
    ensures !(0 <= dragIndex < |FunctionSteps(s)| && 0 <= hoverIndex < |FunctionSteps(s)|) ==> r == s
    ensures dragIndex == hoverIndex ==> r == s
  {
    var functionSteps := FunctionSteps(s);
    if !(0 <= dragIndex < |functionSteps| && 0 <= hoverIndex < |functionSteps|) then s
    else
      var from := Position(s, functionSteps[dragIndex].id);
      var to := Position(s, functionSteps[hoverIndex].id);
      if from == -1 || to == -1 then s
      else Seqs.Move(s, from, to)
  }

  /** What the run button reports: whether a batch starts, over how many functions. */
  datatype RunOutcome = RunOutcome(started: bool, functionCount: nat, toast: Toast)

  const NoFunctionsToast: Toast :=
    Toast("No Functions", "Please add at least one function to your workflow before running.", true)

  /** `handleRunBatch`: refuse with an error notice when no function step exists,
      otherwise report the number of function steps. The list is not touched. */
  function RunBatch(s: seq<Step>): (r: RunOutcome)
    ensures r.started <==> exists i :: 0 <= i < |s| && IsFunctionStep(s[i])
    ensures !r.started ==> r.toast == NoFunctionsToast && r.functionCount == 0
    ensures r.started ==>
      0 < r.functionCount <= |s| && !r.toast.destructive && r.toast.title == "Batch Process Started"
    ensures r.functionCount == |FunctionSteps(s)|
    ensures r.started ==>
      r.toast.description == "Processing workflow with " + Text.Decimal(r.functionCount) + " functions..."
  {
    var functionSteps := FunctionSteps(s);
    Seqs.FilterEmpty(s, IsFunctionStep);
    if |functionSteps| == 0 then
      RunOutcome(false, 0, NoFunctionsToast)
    else
      RunOutcome(true, |functionSteps|, Toast("Batch Process Started",
        "Processing workflow with " + Text.Decimal(|functionSteps|) + " functions...", false))
  }

  /** The builder's state: the step list and the id of the step shown as selected. */
  datatype Builder = Builder(steps: seq<Step>, selected: Option<string>)

  function InitialBuilder(): (b: Builder)
    ensures WellFormed(b.steps) && b.selected.None?
    ensures b.steps == InitialSteps()
  {
    Builder(InitialSteps(), None)
  }

  /** Clicking a card selects its id; the list is not touched. */
  function SelectStep(b: Builder, stepId: string): (r: Builder)
    ensures r.steps == b.steps && r.selected == Some(stepId)
  {
    b.(selected := Some(stepId))
  }

  /** Delete inside the builder: the list changes, the selection is left as it was,
      even when it names the step that was just removed. */
  function DeleteInBuilder(b: Builder, stepId: string): (r: Builder)
    ensures r.selected == b.selected
    ensures r.steps == DeleteStep(b.steps, stepId).steps
    ensures stepId !in Ids(r.steps)
    ensures r.steps == b.steps <==> stepId !in Ids(b.steps)
  {
    b.(steps := DeleteStep(b.steps, stepId).steps)
  }

  // ---------------------------------------------------------------------------
  // Properties of the list operations
  // ---------------------------------------------------------------------------

  /** In a well-formed list the function-only view is exactly the middle of the list. */
  lemma FunctionStepsOfWellFormed(s: seq<Step>)
    requires WellFormed(s)
    ensures FunctionSteps(s) == s[1..|s| - 1]
  {
    var mid := s[1..|s| - 1];
    assert s == [s[0]] + mid + [s[|s| - 1]];
    Seqs.FilterConcat([s[0]] + mid, [s[|s| - 1]], IsFunctionStep);
    Seqs.FilterConcat([s[0]], mid, IsFunctionStep);
    Seqs.FilterIdentity(mid, IsFunctionStep);
  }

  /** Well-formedness carries over to an equal list (a rewriting step that keeps the
      solver from re-deriving the predicate's parts). */
  lemma WellFormedEqual(a: seq<Step>, b: seq<Step>)
    requires WellFormed(a) && a == b
    ensures WellFormed(b)
  {
  }

  /** With unique ids, looking up a step's own id finds that step's position. */
  lemma PositionOfUnique(s: seq<Step>, i: nat)
    requires UniqueIds(s) && i < |s|
    ensures Position(s, s[i].id) == i
  {
    assert s[i].id in Ids(s);
  }

  /** Starting from the initial list, adding F1 then F2 gives input, F1, F2, output. */
  lemma AddTwiceFromInitial(f1: FunctionLibrary.Entry, id1: string, f2: FunctionLibrary.Entry, id2: string)
    ensures AddFunction(AddFunction(InitialSteps(), f1, id1).steps, f2, id2).steps
         == [InitialSteps()[0], NewFunctionStep(id1, f1), NewFunctionStep(id2, f2), InitialSteps()[1]]
  {
    var s0 := InitialSteps();
    assert IsOutputStep(s0[1]) && !IsOutputStep(s0[0]);
    assert InsertionIndex(s0) == 1;
    var s1 := AddFunction(s0, f1, id1).steps;
    assert s1 == [s0[0], NewFunctionStep(id1, f1), s0[1]];
    assert IsOutputStep(s1[2]) && !IsOutputStep(s1[0]) && !IsOutputStep(s1[1]);
    assert InsertionIndex(s1) == 2;
    var s2 := AddFunction(s1, f2, id2).steps;
    assert s2 == [s0[0], NewFunctionStep(id1, f1), NewFunctionStep(id2, f2), s0[1]];
  }

  /** Splicing in a step whose id is new keeps ids unique. */
  lemma InsertKeepsUniqueIds(s: seq<Step>, k: nat, x: Step)
    requires UniqueIds(s) && k <= |s| && x.id !in Ids(s)
    ensures UniqueIds(Seqs.Insert(s, k, x))
  {
    var r := Seqs.Insert(s, k, x);
    forall i, j | 0 <= i < |r| && 0 <= j < |r| && r[i].id == r[j].id
      ensures i == j
    {
      if i != k && j != k {
        var i', j' := if i < k then i else i - 1, if j < k then j else j - 1;
        assert r[i] == s[i'] && r[j] == s[j'];
      }
    }
  }

  /** Splicing a step out keeps ids unique. */
  lemma RemoveAtKeepsUniqueIds(s: seq<Step>, k: nat)
    requires UniqueIds(s) && k < |s|
    ensures UniqueIds(Seqs.RemoveAt(s, k))
  {
    var r := Seqs.RemoveAt(s, k);
    forall i, j | 0 <= i < |r| && 0 <= j < |r| && r[i].id == r[j].id
      ensures i == j
    {
      var i', j' := if i < k then i else i + 1, if j < k then j else j + 1;
      assert r[i] == s[i'] && r[j] == s[j'];
    }
  }

  /** Adding under a fresh id keeps the list well-formed and appends the new step
      to the function-only view. */
  lemma AddKeepsWellFormed(s: seq<Step>, func: FunctionLibrary.Entry, freshId: string)
    requires WellFormed(s) && freshId !in Ids(s)
    ensures WellFormed(AddFunction(s, func, freshId).steps)
    ensures FunctionSteps(AddFunction(s, func, freshId).steps) == FunctionSteps(s) + [NewFunctionStep(freshId, func)]
  {
    var x := NewFunctionStep(freshId, func);
    var k := |s| - 1;
    assert forall j :: 0 <= j < k ==> !IsOutputStep(s[j]);
    assert InsertionIndex(s) == k;
    var r := Seqs.Insert(s, k, x);
    InsertKeepsUniqueIds(s, k, x);
    assert WellFormed(r);
    WellFormedEqual(r, AddFunction(s, func, freshId).steps);
    FunctionStepsOfWellFormed(s);
    FunctionStepsOfWellFormed(r);
    Seqs.InsertBeforeLastMiddle(s, x);
  }

  /** Adding loses nothing: the old list is a subsequence of the new one. */
  lemma AddKeepsOldSteps(s: seq<Step>, func: FunctionLibrary.Entry, freshId: string)
    ensures Seqs.Embeds(s, AddFunction(s, func, freshId).steps)
  {
    Seqs.EmbedsInsert(s, InsertionIndex(s), NewFunctionStep(freshId, func));
  }

  /** With unique ids, deleting a present id removes exactly that one step. */
  lemma DeleteRemovesExactlyOne(s: seq<Step>, stepId: string)
    requires UniqueIds(s) && stepId in Ids(s)
    ensures DeleteStep(s, stepId).steps == Seqs.RemoveAt(s, Position(s, stepId))
  {
    var k := Position(s, stepId);
    var p := Keeps(stepId);
    var before, after := s[..k], s[k + 1..];
    assert s == before + [s[k]] + after;
    forall i | 0 <= i < |after|
      ensures p(after[i])
    {
      assert after[i] == s[k + 1 + i];
    }
    forall i | 0 <= i < |before|
      ensures p(before[i])
    {
      assert before[i] == s[i];
    }
    Seqs.FilterIdentity(before, p);
    Seqs.FilterIdentity(after, p);
    Seqs.FilterConcat(before, [s[k]], p);
    Seqs.FilterConcat(before + [s[k]], after, p);
    calc {
      DeleteStep(s, stepId).steps;
      Seqs.Filter(before + [s[k]] + after, p);
      Seqs.Filter(before, p) + Seqs.Filter([s[k]], p) + Seqs.Filter(after, p);
      { assert Seqs.Filter([s[k]], p) == []; }
      before + after;
    }
  }

  /** Deleting a step other than the first and last keeps the list well-formed. */
  lemma DeleteKeepsWellFormed(s: seq<Step>, stepId: string)
    requires WellFormed(s) && stepId != s[0].id && stepId != s[|s| - 1].id
    ensures WellFormed(DeleteStep(s, stepId).steps)
  {
    if stepId in Ids(s) {
      DeleteRemovesExactlyOne(s, stepId);
      var k := Position(s, stepId);
      var r := Seqs.RemoveAt(s, k);
      assert 0 < k < |s| - 1;
      assert r[|r| - 1] == s[|s| - 1];
      RemoveAtKeepsUniqueIds(s, k);
    }
  }

  /** Deleting the same id twice is the same as deleting it once; the second
      delete raises no notice. */
  lemma DeleteIdempotent(s: seq<Step>, stepId: string)
    ensures DeleteStep(DeleteStep(s, stepId).steps, stepId) == Update(DeleteStep(s, stepId).steps, None)
  {
    var r := DeleteStep(s, stepId).steps;
    assert stepId !in Ids(r);
  }

  /** A delete keeps every other step and invents none: what remains comes from the
      list, and every step with a different id is still there. */
  lemma DeleteKeepsOthers(s: seq<Step>, stepId: string)
    ensures forall i :: 0 <= i < |DeleteStep(s, stepId).steps| ==> DeleteStep(s, stepId).steps[i] in s
    ensures forall i :: 0 <= i < |s| && s[i].id != stepId ==> s[i] in DeleteStep(s, stepId).steps
  {
    Seqs.EmbedsMembers(DeleteStep(s, stepId).steps, s);
    Seqs.FilterComplete(s, Keeps(stepId));
  }

  /** Nothing guards the endpoints: deleting the input's id from the initial list
      leaves only the output, which is no longer well-formed. */
  lemma DeleteInputIsUnguarded()
    ensures DeleteStep(InitialSteps(), "input").steps == [InitialSteps()[1]]
    ensures !WellFormed(DeleteStep(InitialSteps(), "input").steps)
  {
    DeleteRemovesExactlyOne(InitialSteps(), "input");
    assert Position(InitialSteps(), "input") == 0;
  }

  /** Selection is not cleared on delete: select a step, delete it, and the
      selection still names an id no longer in the list. */
  lemma SelectionSurvivesDelete(b: Builder, stepId: string)
    ensures DeleteInBuilder(SelectStep(b, stepId), stepId).selected == Some(stepId)
    ensures stepId !in Ids(DeleteInBuilder(SelectStep(b, stepId), stepId).steps)
  {
  }

  /**
   In a well-formed list, function index k lives at full position k + 1, so the
   reorder handler moves the step at full position dragIndex + 1 to full
   position hoverIndex + 1.
   */
  lemma ReorderAtFunctionPositions(s: seq<Step>, dragIndex: nat, hoverIndex: nat)
    requires WellFormed(s) && dragIndex < |s| - 2 && hoverIndex < |s| - 2
    ensures ReorderSteps(s, dragIndex, hoverIndex) == Seqs.Move(s, dragIndex + 1, hoverIndex + 1)
  {
    FunctionStepsOfWellFormed(s);
    var functionSteps := FunctionSteps(s);
    assert functionSteps[dragIndex] == s[dragIndex + 1];
    assert functionSteps[hoverIndex] == s[hoverIndex + 1];
    PositionOfUnique(s, dragIndex + 1);
    PositionOfUnique(s, hoverIndex + 1);
    var from := Position(s, functionSteps[dragIndex].id);
    var to := Position(s, functionSteps[hoverIndex].id);
    assert from == dragIndex + 1 && to == hoverIndex + 1;
  }

  /** A reorder is a permutation: the same steps, each as often as before. */
  lemma ReorderPermutes(s: seq<Step>, dragIndex: int, hoverIndex: int)
    ensures multiset(ReorderSteps(s, dragIndex, hoverIndex)) == multiset(s)
  {
    var functionSteps := FunctionSteps(s);
    if 0 <= dragIndex < |functionSteps| && 0 <= hoverIndex < |functionSteps| {
      var from := Position(s, functionSteps[dragIndex].id);
      var to := Position(s, functionSteps[hoverIndex].id);
      if from != -1 && to != -1 {
        Seqs.MovePermutes(s, from, to);
      }
    }
  }

  /** Moving a step keeps ids unique. */
  lemma MoveKeepsUniqueIds(s: seq<Step>, from: nat, to: nat)
    requires UniqueIds(s) && from < |s| && to < |s|
    ensures UniqueIds(Seqs.Move(s, from, to))
  {
    var r := Seqs.Move(s, from, to);
    Seqs.MoveSourceMap(s, from, to);
    forall i, j | 0 <= i < |r| && 0 <= j < |r| && r[i].id == r[j].id
      ensures i == j
    {
      var i', j' := Seqs.MoveSource(i, from, to), Seqs.MoveSource(j, from, to);
      assert s[i'].id == s[j'].id;
    }
  }

  /** Moving a step between two middle positions keeps a list well-formed. */
  lemma MoveKeepsWellFormed(s: seq<Step>, from: nat, to: nat)
    requires WellFormed(s) && 0 < from < |s| - 1 && 0 < to < |s| - 1
    ensures WellFormed(Seqs.Move(s, from, to))
  {
    var r := Seqs.Move(s, from, to);
    Seqs.MoveSourceMap(s, from, to);
    forall i | 0 < i < |r| - 1
      ensures IsFunctionStep(r[i])
    {
      assert 0 < Seqs.MoveSource(i, from, to) < |s| - 1;
    }
    assert r[0] == s[0] && r[|r| - 1] == s[|s| - 1];
    MoveKeepsUniqueIds(s, from, to);
  }

  /** Reordering keeps a well-formed list well-formed: input and output stay put
      and ids stay unique. */
  lemma ReorderKeepsWellFormed(s: seq<Step>, dragIndex: int, hoverIndex: int)
    requires WellFormed(s)
    ensures WellFormed(ReorderSteps(s, dragIndex, hoverIndex))
  {
    FunctionStepsOfWellFormed(s);
    if 0 <= dragIndex < |s| - 2 && 0 <= hoverIndex < |s| - 2 {
      ReorderInRangeKeepsWellFormed(s, dragIndex, hoverIndex);
    }
  }

  /** The in-range case: the reorder is a move between two middle positions. */
  lemma ReorderInRangeKeepsWellFormed(s: seq<Step>, dragIndex: nat, hoverIndex: nat)
    requires WellFormed(s) && dragIndex < |s| - 2 && hoverIndex < |s| - 2
    ensures WellFormed(ReorderSteps(s, dragIndex, hoverIndex))
  {
    ReorderAtFunctionPositions(s, dragIndex, hoverIndex);
    MoveKeepsWellFormed(s, dragIndex + 1, hoverIndex + 1);
    WellFormedEqual(Seqs.Move(s, dragIndex + 1, hoverIndex + 1), ReorderSteps(s, dragIndex, hoverIndex));
  }

  /** In a well-formed list, dragging back from where a step landed undoes the reorder. */
  lemma ReorderRoundTrip(s: seq<Step>, dragIndex: int, hoverIndex: int)
    requires WellFormed(s)
    ensures ReorderSteps(ReorderSteps(s, dragIndex, hoverIndex), hoverIndex, dragIndex) == s
  {
    FunctionStepsOfWellFormed(s);
    if 0 <= dragIndex < |s| - 2 && 0 <= hoverIndex < |s| - 2 {
      ReorderRoundTripInRange(s, dragIndex, hoverIndex);
    }
  }

  /** The round trip for indices that name function steps. */
  lemma ReorderRoundTripInRange(s: seq<Step>, dragIndex: nat, hoverIndex: nat)
    requires WellFormed(s) && dragIndex < |s| - 2 && hoverIndex < |s| - 2
    ensures ReorderSteps(ReorderSteps(s, dragIndex, hoverIndex), hoverIndex, dragIndex) == s
  {
    var m := Seqs.Move(s, dragIndex + 1, hoverIndex + 1);
    ReorderAtFunctionPositions(s, dragIndex, hoverIndex);
    ReorderBack(s, m, dragIndex, hoverIndex);
  }

  /** The second half of the round trip: the moved list, reordered back, is the original. */
  lemma ReorderBack(s: seq<Step>, m: seq<Step>, dragIndex: nat, hoverIndex: nat)
    requires WellFormed(s) && dragIndex < |s| - 2 && hoverIndex < |s| - 2
    requires m == Seqs.Move(s, dragIndex + 1, hoverIndex + 1)
    ensures ReorderSteps(m, hoverIndex, dragIndex) == s
  {
    MoveKeepsWellFormed(s, dragIndex + 1, hoverIndex + 1);
    ReorderAtFunctionPositions(m, hoverIndex, dragIndex);
    Seqs.MoveInverse(s, dragIndex + 1, hoverIndex + 1);
  }

  /** On a well-formed list a run starts exactly when something sits between input
      and output, and it counts every step in between. */
  lemma RunCountsMiddleSteps(s: seq<Step>)
    requires WellFormed(s)
    ensures RunBatch(s).started <==> |s| > 2
    ensures RunBatch(s).functionCount == |s| - 2
  {
    FunctionStepsOfWellFormed(s);
    if |s| > 2 {
      assert IsFunctionStep(s[1]);
    }
  }

  /** Dragging the third function onto the first of [input, F1, F2, F3, output]
      gives [input, F3, F1, F2, output]. */
  lemma ReorderThirdOntoFirst(i: Step, f1: Step, f2: Step, f3: Step, o: Step)
    requires WellFormed([i, f1, f2, f3, o])
    ensures ReorderSteps([i, f1, f2, f3, o], 2, 0) == [i, f3, f1, f2, o]
  {
    var s := [i, f1, f2, f3, o];
    ReorderAtFunctionPositions(s, 2, 0);
    Seqs.MoveBackward(s, 3, 1);
    assert s[..1] + [s[3]] + s[1..3] + s[4..] == [i, f3, f1, f2, o];
  }
}

=== FILE: workflow_steps.dfy ===
/**
 The builder's right-hand steps panel. It renders every step as a card, lets the
 cards other than input and output be dragged and deleted, and on drag-over asks
 the builder to reorder, passing the FULL-list positions of the two cards. The
 builder's reorder handler reads its arguments as positions among the FUNCTION
 steps only; the lemmas at the end spell out what that does to a drag.
 */
module WorkflowStepsPanel {
  import opened Wrappers
  import Seqs
  import opened DragGesture
  import opened WorkflowBuilder

  /** A card is draggable, and shows its edit/delete buttons, unless it is the input or the output. */
  function Draggable(st: Step): (b: bool)
    ensures b <==> IsFunctionStep(st)
  {
    !st.kind.Input? && !st.kind.Output?
  }

  /** `handleDragOver(index)`: with a drag in progress over a different card, request
      the reorder and track the hovered card; otherwise nothing happens. The hovered
      card's type is not looked at. */
  function DragOver(state: DragState, index: nat): (t: Transition)
    ensures t.request.Some? <==> state.Dragging? && state.position != index
    ensures t.request.Some? ==>
      t.request.value == ReorderRequest(state.position, index) && t.next == Dragging(index)
    ensures t.request.None? ==> t.next == state
  {
    if state.Dragging? && state.position != index then Emit(state.position, index)
    else Stay(state)
  }

  /** The delete button of the card at `index`: present only on draggable cards, and
      it asks to delete that card's own id. */
  function DeleteButton(steps: seq<Step>, index: nat): (r: Option<string>)
    requires index < |steps|
    ensures r.Some? <==> !steps[index].kind.Input? && !steps[index].kind.Output?
    ensures r.Some? ==> r.value == steps[index].id
  {
    if Draggable(steps[index]) then Some(steps[index].id) else None
  }

  /** What the builder does with a request from this panel: the positions go straight
      into the reorder handler, which takes them as function-only indices. */
  function Deliver(steps: seq<Step>, request: ReorderRequest): (r: seq<Step>)
    ensures |r| == |steps|
    ensures request.dragPosition == request.hoverPosition ==> r == steps
  {
    ReorderSteps(steps, request.dragPosition, request.hoverPosition)
  }

  /** Hovering the same card twice in a row emits one request, not two. */
  lemma RepeatedHoverEmitsOnce(state: DragState, index: nat)
    requires state.Dragging? && state.position != index
    ensures DragOver(state, index).request.Some?
    ensures DragOver(DragOver(state, index).next, index).request.None?
    ensures DragOver(DragOver(state, index).next, index).next == Dragging(index)
  {
  }

  /** A whole gesture — start, one drag-over, end — emits the request (start, over)
      when the two cards differ, and leaves the panel idle. */
  lemma GestureEmitsOneRequest(state: DragState, start: nat, over: nat)
    requires start != over
    ensures DragOver(DragStart(state, start), over).request == Some(ReorderRequest(start, over))
    ensures DragEnd(DragOver(DragStart(state, start), over).next) == Idle
  {
  }

  /** In a well-formed list the delete button is shown on exactly the middle cards,
      so this panel never offers to delete the input or the output. */
  lemma DeleteButtonOnMiddleCards(steps: seq<Step>, index: nat)
    requires WellFormed(steps) && index < |steps|
    ensures DeleteButton(steps, index).Some? <==> 0 < index < |steps| - 1
  {
    if 0 < index < |steps| - 1 {
      assert IsFunctionStep(steps[index]);
    }
  }

  /**
   The index mismatch. A drag from the card at full position `p` over the card at
   full position `q` of a well-formed list reaches the handler as function indices
   p and q. When both lie before the last function card (q may be 0, the input card,
   which this panel accepts as a drop target), the step that moves is the one at
   full position p + 1, the card BELOW the dragged one, and it lands at full
   position q + 1.
   */
  lemma DeliverMovesTheNextCard(steps: seq<Step>, p: nat, q: nat)
    requires WellFormed(steps) && p < |steps| - 2 && q < |steps| - 2
    ensures Deliver(steps, ReorderRequest(p, q)) == Seqs.Move(steps, p + 1, q + 1)
    ensures p != q ==> Deliver(steps, ReorderRequest(p, q))[q + 1] == steps[p + 1] != steps[p]
  {
    ReorderAtFunctionPositions(steps, p, q);
    if p != q {
      assert steps[p + 1].id != steps[p].id;
    }
  }

  /** Dragging from, or hovering over, the last function card or the output card names
      a function index past the end of the function-only view, so nothing moves: this
      panel can never move the last function step. */
  lemma DeliverOverLastCardIsNoOp(steps: seq<Step>, p: nat, q: nat)
    requires WellFormed(steps) && (p >= |steps| - 2 || q >= |steps| - 2)
    ensures Deliver(steps, ReorderRequest(p, q)) == steps
  {
    FunctionStepsOfWellFormed(steps);
  }

  /**
   Worked example on [input, F1, F2, F3, output]: dragging F1 (full position 1) over
   F2 (full position 2) gives [input, F1, F3, F2, output] — F2 and F3 swap and F1
   stays where it was — whereas moving the dragged card to the hovered slot would
   give [input, F2, F1, F3, output].
   */
  lemma DragFirstOverSecond(i: Step, f1: Step, f2: Step, f3: Step, o: Step)
    requires WellFormed([i, f1, f2, f3, o])
    ensures DragOver(Dragging(1), 2).request == Some(ReorderRequest(1, 2))
    ensures Deliver([i, f1, f2, f3, o], ReorderRequest(1, 2)) == [i, f1, f3, f2, o]
    ensures Deliver([i, f1, f2, f3, o], ReorderRequest(1, 2)) != Seqs.Move([i, f1, f2, f3, o], 1, 2)
  {
    var s := [i, f1, f2, f3, o];
    ReorderAtFunctionPositions(s, 1, 2);
    MovesOfFive(i, f1, f2, f3, o);
    assert s[1].id != s[2].id;
  }

  /** The two moves the worked example compares, on a five-element list. */
  lemma MovesOfFive<T>(a: T, b: T, c: T, d: T, e: T)
    ensures Seqs.Move([a, b, c, d, e], 2, 3) == [a, b, d, c, e]
    ensures Seqs.Move([a, b, c, d, e], 1, 2) == [a, c, b, d, e]
  {
    var s := [a, b, c, d, e];
    Seqs.MoveForward(s, 2, 3);
    assert s[..2] + s[3..4] + [s[2]] + s[4..] == [a, b, d, c, e];
    Seqs.MoveForward(s, 1, 2);
    assert s[..1] + s[2..3] + [s[1]] + s[3..] == [a, c, b, d, e];
  }
}

=== FILE: wrappers.dfy ===
/** The optional value used wherever the source has `null` / `undefined`. */
module Wrappers {

  datatype Option<+T> = None | Some(value: T)
}

=== FILE: zoom_controls.dfy ===
/**
 The zoom control: a percentage held as a one-element array (the shape the slider
 works with), changed in steps of 25 by two buttons or set by the slider, and always
 clamped to the range 25 to 200. Every change is stored and reported to the owner
 together.
 */
module ZoomControls {

  const ZoomStep: int := 25
  const MinZoom: int := 25
  const MaxZoom: int := 200

  /** The control starts at 100%. */
  const InitialZoom: seq<int> := [100]

  /** `Math.min` and `Math.max` on integers. */
  function Min(a: int, b: int): int { if a <= b then a else b }
  function Max(a: int, b: int): int { if a >= b then a else b }

  /** `Math.min(Math.max(z, minZoom), maxZoom)`. */
  function Clamp(z: int): (c: int)
    ensures MinZoom <= c <= MaxZoom
    ensures MinZoom <= z <= MaxZoom ==> c == z
    ensures z < MinZoom ==> c == MinZoom
    ensures z > MaxZoom ==> c == MaxZoom
  {
    Min(Max(z, MinZoom), MaxZoom)
  }

  /** What one update does: the array it stores and the array it reports. */
  datatype ZoomUpdate = ZoomUpdate(stored: seq<int>, reported: seq<int>)

  /** `updateZoom`: clamp, store `[clamped]`, report `[clamped]`. */
  function UpdateZoom(z: int): (u: ZoomUpdate)
    ensures |u.stored| == 1 && MinZoom <= u.stored[0] <= MaxZoom
    ensures u.reported == u.stored
    ensures MinZoom <= z <= MaxZoom ==> u.stored == [z]
    ensures u.stored == [Clamp(z)]
  {
    var clamped := Clamp(z);
    ZoomUpdate([clamped], [clamped])
  }

  /** `handleZoomIn`: one step up from the stored value. The stored array is never
      empty: it starts as [100] and every update stores a one-element array. */
  function ZoomIn(zoom: seq<int>): (u: ZoomUpdate)
    requires |zoom| >= 1
    ensures |u.stored| == 1 && u.reported == u.stored
    ensures zoom[0] >= MinZoom - ZoomStep ==> u.stored[0] == Min(zoom[0] + ZoomStep, MaxZoom)
    ensures MinZoom <= zoom[0] < MaxZoom ==> u.stored[0] > zoom[0]
  {
    UpdateZoom(zoom[0] + ZoomStep)
  }

  /** `handleZoomOut`: one step down from the stored value. */
  function ZoomOut(zoom: seq<int>): (u: ZoomUpdate)
    requires |zoom| >= 1
    ensures |u.stored| == 1 && u.reported == u.stored
    ensures zoom[0] <= MaxZoom + ZoomStep ==> u.stored[0] == Max(zoom[0] - ZoomStep, MinZoom)
    ensures MinZoom < zoom[0] <= MaxZoom ==> u.stored[0] < zoom[0]
  {
    UpdateZoom(zoom[0] - ZoomStep)
  }

  /** `handleSliderChange`: the slider reports one value per thumb; the first one is used. */
  function SliderChange(values: seq<int>): (u: ZoomUpdate)
    requires |values| >= 1
    ensures MinZoom <= values[0] <= MaxZoom ==> u.stored == [values[0]]
    ensures u.stored == UpdateZoom(values[0]).stored
    ensures u.reported == u.stored
  {
    UpdateZoom(values[0])
  }

  /** Clamping a clamped value changes nothing. */
  lemma ClampIdempotent(z: int)
    ensures Clamp(Clamp(z)) == Clamp(z)
  {
  }

  /** At the top of the range zoom-in stays put, at the bottom zoom-out does. */
  lemma ZoomStopsAtTheEnds()
    ensures ZoomIn([MaxZoom]).stored == [MaxZoom]
    ensures ZoomOut([MinZoom]).stored == [MinZoom]
  {
  }

  /** Away from the top, zoom-in followed by zoom-out comes back to where it started;
      away from the bottom, so does zoom-out followed by zoom-in. */
  lemma InOutRoundTrip(z: int)
    ensures MinZoom <= z <= MaxZoom - ZoomStep ==> ZoomOut(ZoomIn([z]).stored).stored == [z]
    ensures MinZoom + ZoomStep <= z <= MaxZoom ==> ZoomIn(ZoomOut([z]).stored).stored == [z]
  {
  }

  /** A user action on the control. */
  datatype ZoomAction = In | Out | Slide(values: seq<int>)

  /** The slider reports at least one value, one per thumb. */
  predicate Reported(a: ZoomAction)
  {
    a.Slide? ==> |a.values| >= 1
  }

  /** The stored array after one action. */
  function Apply(zoom: seq<int>, a: ZoomAction): (r: seq<int>)
    requires |zoom| >= 1 && Reported(a)
    ensures |r| == 1
    ensures a.In? ==> r == ZoomIn(zoom).stored
    ensures a.Out? ==> r == ZoomOut(zoom).stored
    ensures a.Slide? ==> r == UpdateZoom(a.values[0]).stored
  {
    match a
    case In => ZoomIn(zoom).stored
    case Out => ZoomOut(zoom).stored
    case Slide(values) => SliderChange(values).stored
  }

  /** The stored array after a sequence of actions, from left to right. */
  function ApplyAll(zoom: seq<int>, actions: seq<ZoomAction>): (r: seq<int>)
    requires |zoom| >= 1 && forall i :: 0 <= i < |actions| ==> Reported(actions[i])
    ensures |r| >= 1
    decreases |actions|
  {
    if |actions| == 0 then zoom else ApplyAll(Apply(zoom, actions[0]), actions[1..])
  }

  /** Whatever the user does, starting from the initial zoom the stored array holds
      exactly one value, within the range. */
  lemma {:induction false} ZoomStaysInRange(zoom: seq<int>, actions: seq<ZoomAction>)
    requires |zoom| == 1 && MinZoom <= zoom[0] <= MaxZoom
    requires forall i :: 0 <= i < |actions| ==> Reported(actions[i])
    ensures |ApplyAll(zoom, actions)| == 1
    ensures MinZoom <= ApplyAll(zoom, actions)[0] <= MaxZoom
    decreases |actions|
  {
    if |actions| > 0 {
      ZoomStaysInRange(Apply(zoom, actions[0]), actions[1..]);
    }
  }

  /** With the buttons alone, starting from the initial zoom, the level is always a
      multiple of the step. */
  lemma {:induction false} ButtonsKeepMultiplesOfStep(zoom: seq<int>, actions: seq<ZoomAction>)
    requires |zoom| == 1 && MinZoom <= zoom[0] <= MaxZoom && zoom[0] % ZoomStep == 0
    requires forall i :: 0 <= i < |actions| ==> !actions[i].Slide?
    ensures ApplyAll(zoom, actions)[0] % ZoomStep == 0
    decreases |actions|
  {
    if |actions| > 0 {
      ButtonsKeepMultiplesOfStep(Apply(zoom, actions[0]), actions[1..]);
    }
  }

  /** The initial zoom satisfies both lemmas' starting conditions. */
  lemma InitialZoomIsAStep()
    ensures |InitialZoom| == 1 && MinZoom <= InitialZoom[0] <= MaxZoom && InitialZoom[0] % ZoomStep == 0
  {
  }
}
